=== FILE: README.md ===
# Ticketing backend: request decision logic in Dafny

This project models the pure decision logic of a small ticketing backend
(an Express application backed by Firestore) and proves properties of it:

- **Proximity filter** (`findNearbyTickets`): keep the stored tickets whose
  haversine distance from the user's point is `<=` the radius read with
  `parseFloat`. JavaScript numbers are modelled with NaN and the infinities.
  The `<=` comparison is IEEE: it is false whenever either side is NaN.
- **Coordinate checks** (`isValidLatitude`, `isValidLongitude`): closed
  interval checks. They apply JavaScript's implicit `ToNumber` to their
  argument.
- **Upload gate** (`fileFilter` and `uploadMiddleware`): the MIME whitelist,
  the 2 MiB size limit, and how the middleware turns multer's outcome into a
  400 reply or a call to the next handler.
- **Ticket creation schema** (`create` in the ticket controller): three keys
  checked with the schema library's default early abort. The first failure
  is reported with status 403, and a body that passes gets no reply.
- **User registration** (`create` in the user controller): all failures are
  collected and joined with ", ". After that come the duplicate-username
  lookup, the stored record and the reply.

The schema checks follow the Joi library's order. Presence is checked first,
then the `valid(...)` list, then the base type, then the rules. An object
schema checks its declared keys in order and then reports each key it does
not declare, labelled by its name (two keys where the library behaves
differently are listed under "## Left out"). The `Joi` module holds this
shared slice.

Abstract behaviour is passed in as function parameters:

- how `parseFloat` and `Number` read a string;
- the haversine arithmetic;
- Joi's string-to-number conversion and its email syntax;
- the password hash;
- the user store (the registered usernames, plus lookup and write failures).

Nothing is read from a clock, the network or a database.

Behaviour of the code that a reader might not expect:

- Ticket validation replies 403 with only the first failure, as
  `ValidationError: <message>` (src/controllers/ticket.controller.js:37-42).
  A body that passes gets no reply at all (line 44 is commented out).
- Registration success replies 200 (src/controllers/user.controller.js:60).
- A negative or unreadable radius is not an error
  (src/helper/haversineDistance.js:24). An unreadable radius selects nothing.

Modules: `Options`, `JsValues` (JS numbers and values, `parseFloat`,
`ToNumber`), `Subsequences`, `Joi`, `Haversine`, `Number`, `TicketRoute`,
`TicketController`, `UserController`.

## Model

| member | source | states |
|---|---|---|
| JsValues.AtMost | src/helper/haversineDistance.js:29 | `<=` on numbers: never true with NaN, the real order on finite numbers, +Infinity above and -Infinity below every other number |
| JsValues.AtMostTotal | src/helper/haversineDistance.js:29 | any two numbers other than NaN compare one way or the other |
| JsValues.AtMostTransitive | src/helper/haversineDistance.js:29 | JavaScript `<=` on numbers is transitive, which is what makes the filter monotonic in the radius |
| JsValues.AtMostNaN | src/helper/haversineDistance.js:29 | `<=` is false when either side is NaN, and reflexive on every other number |
| JsValues.ParseFloat | src/helper/haversineDistance.js:2-5 | `parseFloat` gives a number back unchanged, reads a string by its grammar, and gives NaN for `undefined`, `null` and the booleans |
| JsValues.ToNumber | src/helper/number.js:8-14 | the comparison's conversion gives a number back unchanged, NaN for `undefined` only among non-strings, 0 for `null` and `false`, and 1 for `true` |
| JsValues.ParseFloatVersusToNumber | src/helper/number.js:8-14 | on a non-string the two conversions agree exactly for numbers and `undefined` |
| Haversine.HaversineDistance | src/helper/haversineDistance.js:1-21 | the distance is NaN or finite, never infinite; it is finite only when all four coordinates parse to finite numbers |
| Haversine.KeepNearby | src/helper/haversineDistance.js:25-30 | the filter's result is an order-preserving subsequence of the input; every kept ticket has distance `<=` radius, measured with the user's point as the first pair and the ticket's as the second; every input ticket with distance `<=` radius is kept |
| Haversine.NearbyTickets | src/helper/haversineDistance.js:23-31 | `findNearbyTickets` returns an order-preserving selection of the tickets, holding exactly those whose distance from the user's point is `<=` the radius as `parseFloat` reads it |
| Haversine.NearbyTicketsSpec | src/helper/haversineDistance.js:23-31 | the same three properties over reals: a kept ticket has a finite distance d with d <= r, the boundary included, or the radius is +Infinity; each such ticket is kept |
| Haversine.UnparsableRadiusSelectsNothing | src/helper/haversineDistance.js:24-29 | if `parseFloat` of the radius is NaN, the result is empty |
| Haversine.UnparsablePositionNeverNearby | src/helper/haversineDistance.js:26-29 | a ticket whose stored latitude or longitude parses to NaN is never returned |
| Haversine.KeepNearbyMonotonic | src/helper/haversineDistance.js:29 | for parsed radii r <= r', the tickets kept for r form a subsequence of those kept for r' |
| Haversine.NearbyTicketsMonotonic | src/helper/haversineDistance.js:23-31 | `findNearbyTickets` is monotonic in its radius argument, in the subsequence order |
| Haversine.NearbyTicketsConcat | src/helper/haversineDistance.js:25-30 | filtering a concatenation equals concatenating the filtered parts |
| Haversine.NearbyTicketsIdempotent | src/helper/haversineDistance.js:25-30 | filtering the filtered list again returns it unchanged |
| Number.IsValidLatitude | src/helper/number.js:8-10 | accepts exactly when the argument converts to a finite number in [-90, 90] |
| Number.IsValidLongitude | src/helper/number.js:12-14 | accepts exactly when the argument converts to a finite number in [-180, 180] |
| Number.NumericRanges | src/helper/number.js:8-14 | on a number x, latitude holds iff -90 <= x <= 90 and longitude iff -180 <= x <= 180; all four ends are accepted |
| Number.JustOutsideRejected | src/helper/number.js:8-14 | 90.0001 and -90.0001 are not latitudes; 180.0001 and -180.0001 are not longitudes |
| Number.LatitudeIsLongitude | src/helper/number.js:8-14 | every value accepted as a latitude is accepted as a longitude |
| Number.NonFiniteRejected | src/helper/number.js:8-14 | a value converting to NaN or an infinity (such as `undefined`) fails both checks; `null` converts to 0 and passes both |
| TicketRoute.FileFilter | src/routes/ticket.route.js:7-14 | a part is accepted exactly when its mimetype is `image/jpeg`, `image/png`, `image/jpg` or `image/gif` |
| TicketRoute.ReceiveImage | src/routes/ticket.route.js:16-22 | a file is kept only when whitelisted and at most 2*1024*1024 bytes; a rejected type is dropped with no error; only a whitelisted oversized part raises `LIMIT_FILE_SIZE` |
| TicketRoute.UploadGate | src/routes/ticket.route.js:24-42 | `LIMIT_FILE_SIZE` replies 400 with the 2MB message; a non-multer error replies 400 with its own message; any other multer code falls through to the file check; `next()` happens iff no early reply and a file is present |
| TicketRoute.UploadOutcome | src/routes/ticket.route.js:7-40 | end to end for one part: wrong type or no file gives the invalid-type reply, a whitelisted oversized file gives the size reply, otherwise `next()` |
| TicketRoute.SizeBoundary | src/routes/ticket.route.js:19-21 | a whitelisted file of exactly 2 MiB passes; one byte more is refused with the size message |
| Joi.StringErrors | src/controllers/ticket.controller.js:20-23 | `Joi.string().required()` passes exactly a non-empty string; `undefined` and `""` give their custom messages; at most one message |
| Joi.Get | src/controllers/ticket.controller.js:19-35 | reading a key gives `undefined` when the body lacks it, and otherwise a value stored under that key |
| Joi.GetFindsFirstMatch | src/controllers/ticket.controller.js:19-35 | reading a key gives the value of the first entry with that key |
| Joi.GetInBody | src/controllers/user.controller.js:63-65 | in a body, reading any entry's key gives that entry's value |
| Joi.UnknownKeyErrors | src/controllers/ticket.controller.js:19-35 | there are no messages iff every body key is declared; the message of every undeclared key is present, and every message is `"key" is not allowed` for an undeclared key |
| Joi.UnknownKeyErrorsInKeyOrder | src/controllers/ticket.controller.js:19-35 | the messages come in the body's key order: they are an order-preserving selection of all keys' messages |
| Joi.UnknownKeyMessagesDistinct | src/controllers/user.controller.js:8-44 | in a body no message repeats, so with the two rows above each undeclared key is reported exactly once |
| Joi.Join | src/controllers/user.controller.js:74 | `join`: empty for no parts, the part itself for one, and otherwise starts with the first part and the separator |
| Joi.JoinContainsParts | src/controllers/user.controller.js:74 | every part occurs whole in the joined string |
| TicketController.PriceErrors | src/controllers/ticket.controller.js:24-30 | at most one price message; none iff the value is (or converts to) a number in [0, 100000000]; `undefined` gives the required message and a non-numeric value the not-a-number message |
| TicketController.Violations | src/controllers/ticket.controller.js:19-35 | the schema reports nothing iff: the title and description are non-empty strings, the price is (or converts to) a number in [0, 100000000], and there is no other key |
| TicketController.Create | src/controllers/ticket.controller.js:17-45 | no reply iff the body is acceptable; otherwise status 403 with `ValidationError: ` and one of the schema's messages |
| TicketController.TitleReportedFirst | src/controllers/ticket.controller.js:20-23 | a missing, empty or non-string title is the failure reported, whatever else is wrong |
| TicketController.PriceReportedSecond | src/controllers/ticket.controller.js:24-30 | with a good title, a missing or non-numeric price, or a negative or too large safe number, is reported with its own message |
| TicketController.DescriptionReportedThird | src/controllers/ticket.controller.js:31-34 | with a good title and price, a missing or empty description is reported |
| TicketController.UnknownKeyReportedLast | src/controllers/ticket.controller.js:19-42 | with every declared key acceptable, the 403 names the body's first undeclared key (`"key" is not allowed`) |
| TicketController.NumericPriceErrors | src/controllers/ticket.controller.js:24-27 | the price rules accept a number iff it lies in [0, 100000000]; -1 fails `min`, 100000001 fails `max` |
| TicketController.PriceRange | src/controllers/ticket.controller.js:24-42 | with the other keys fine, 0 and 100000000 get no reply; -1 and 100000001 get 403 with the min and max messages |
| UserController.EmailErrors | src/controllers/user.controller.js:27-31 | at most one email message; none iff the value is a non-empty string the email syntax accepts; missing or empty gives `Email is required`, a bad address `Email is not valid` |
| UserController.PasswordErrors | src/controllers/user.controller.js:32-36 | at most one password message; none iff the value is a string of at least 6 characters; missing or empty gives `Password is required`, 1 to 5 characters the too-short message |
| UserController.ConfirmPasswordErrors | src/controllers/user.controller.js:37-43 | no message iff the confirmation is present and equal to the password; missing gives `Confirm Password is required`; any other value gives `Password not match` first, followed by a second message exactly when it is not a non-empty string: the `"confirm_password" is not allowed to be empty` message for `""`, the `"confirm_password" must be a string` message otherwise |
| UserController.Violations | src/controllers/user.controller.js:8-44 | no synchronous failure iff: non-empty username and name; an email string with valid syntax; a password of at least 6 characters; an equal confirmation; no other key |
| UserController.Register | src/controllers/user.controller.js:6-81 | failures give one 400 with all messages joined by ", ". A taken username gives 400 `Username already exist` exactly when validation passed. A write is requested iff valid, the lookup succeeded, the username is new and hashing succeeded. Success (200, `Registration Success`) iff a write was requested and `set` succeeded, and it returns only username, name and email. The record is keyed by username and holds name, email and the password's hash. A failed lookup gives 500 with its message followed by ` (username)`; a failed hash or `set` gives 500 with its own message |
| UserController.EveryViolationReported | src/controllers/user.controller.js:47-75 | each collected failure message appears in the single 400 reply |
| UserController.MissingFieldsReported | src/controllers/user.controller.js:19-43 | a missing username, name, email, password or confirmation yields its `... is required` message |
| UserController.ShortPasswordReported | src/controllers/user.controller.js:32-33 | a password string of 1 to 5 characters yields the at-least-6-characters message |
| UserController.MismatchReported | src/controllers/user.controller.js:37-41 | a present confirmation that differs from the password yields `Password not match` |
| UserController.TakenUsernameReportedAlone | src/controllers/user.controller.js:9-15 | `Username already exist` is never a synchronous message; when it is the reply, validation passed and the username was registered |

## Left out

- The haversine arithmetic (sines, cosines, `atan2`, square roots) is an
  uninterpreted parameter, so symmetry and zero self-distance are not stated.
  Only the parsing of its inputs is modelled. A NaN or infinite coordinate
  makes the result NaN.
- The string grammars of `parseFloat`, `Number(...)` and Joi's numeric
  conversion are parameters. Joi's check for digits lost when converting a
  numeric string is not modelled. The `number.unsafe` check on numbers beyond
  2^53-1 is modelled.
- Floating-point rounding: finite doubles are exact reals.
- Password length is counted in characters (code points). JavaScript counts
  UTF-16 code units.
- Joi.UnknownKeyErrors: two keys are reported as the schema library does not
  report them. These are recalled from Joi 17, so they depend on the installed
  version. An empty key `""` is labelled `value` by the library, so it is
  reported as `"value" is not allowed`; the model reports `"" is not allowed`.
  An own `__proto__` key of a JSON body is lost when the library copies the
  body before checking it, so it is never reported; the model reports it. A
  multipart body has no prototype, so it keeps that key.
- Joi.UnknownKeyMessagesDistinct: "no message repeats" holds for the model's
  labels. With the library's `value` label for `""`, a body with both the
  keys `""` and `value` gets `"value" is not allowed` twice.
- UserController.Violations: a JSON registration body whose only extra key is
  `__proto__` is refused by the model but, as recalled above, accepted by the
  library, which then replies 200.
- TicketController.Violations: the same two keys differ in the same way for
  ticket bodies.
- Request bodies hold `undefined`, `null`, booleans, finite numbers and
  strings. Nested objects and arrays are not modelled, whether they come from
  JSON, from extended URL-encoded bodies or from bracketed multipart field
  names. A body that is itself an array, which the schema refuses with
  `"value" must be of type object`, is not representable either.
- A JSON number too large for a double (such as `1e400`) parses to Infinity,
  which the number schema refuses with `number.infinity`. That path is not
  modelled: `Num` holds only finite values.
- The order of a body's keys is taken as given: the model assumes it is the
  `Object.keys` order, in which keys that are array indices come first.
- The email syntax, `hashPassword` and `isUserAlreadyRegistered` are
  parameters; the last two do I/O. Their source files are not part of this
  model.
- Firestore access (the `set` call, src/database/firestore.js, the log
  controller) is replaced by a `UserStore` value. It holds the registered
  usernames and the messages of the errors thrown by the lookup, by
  `hashPassword` and by `set`. A hash failure means `set` is never called,
  because the hash is awaited while `set`'s argument is built.
- UserController.Register: the ` (username)` suffix on a failed lookup's 500
  message follows Joi 17's asynchronous validation, which appends the key's
  label to an error thrown inside an external rule before rethrowing it. The
  library's source is not part of this model, so this depends on the
  installed Joi version.
- Concurrency is not modelled. The username lookup
  (src/controllers/user.controller.js:10) and the write (line 54) are not
  atomic, and `set` overwrites an existing document. Two concurrent
  registrations of the same new username can both pass the lookup, both reply
  200, and the later write replaces the earlier user's record. A `UserStore`
  is one snapshot and cannot show this.
- TicketRoute.SizeBoundary: a file of exactly 2 MiB passing follows the
  documented meaning of multer's `fileSize` limit and the source comment "no
  larger than 2mb". Whether the limit is hit at or above 2 MiB is decided by
  the multipart parser multer uses, whose source is not part of this model,
  and may differ between its versions.
- `formatCurrency` is not modelled: it is locale formatting by a foreign
  library.
- Multer's multipart parsing and memory storage are not modelled.
  `ReceiveImage` covers one `image_file` part. Any other upload failure (an
  unexpected field, a malformed body) is an arbitrary `UploadError` given to
  `UploadGate`.
- Stub handlers that only return fixed messages are not modelled: ticket
  `getAll`, `getById`, `update`, `remove`, and user `updateUser` and `getAll`.
- The `getTicketsNearby` handler that the nearby route names has no
  implementation in the code. Ticket ids, status transitions, soft delete and
  ownership checks have none either.
- Express routing, the recommendation controller (an outbound HTTP call) and
  server start-up are wiring or I/O and are not modelled.

=== FILE: haversine.dfy ===
/**
 * The proximity filter of src/helper/haversineDistance.js: `findNearbyTickets`
 * keeps, in their original order, the tickets whose haversine distance from the
 * user's point is `<=` the radius parsed with `parseFloat`.
 *
 * The great-circle arithmetic (sines, cosines, `atan2` and square roots on
 * doubles) is the uninterpreted `arc` of a `GeoEnv`; only how its inputs are
 * parsed and how its result is compared is modelled.
 */
module Haversine {
  import opened Options
  import opened JsValues
  import opened Subsequences

  /**
   * The behaviour this model leaves abstract: how `parseFloat` reads a string,
   * and the haversine arithmetic on four finite degree values (latitude and
   * longitude of the first point, then of the second), which yields a distance
   * in kilometres or `None` when the floating-point evaluation produces NaN.
   */
  datatype GeoEnv = GeoEnv(parseString: string -> JsNumber, arc: (real, real, real, real) -> Option<real>)

  /**
   * A stored ticket: its position fields as stored, and every other field,
   * which the filter carries along untouched.
   */
  datatype Ticket = Ticket(latitudePosition: JsValue, longitudePosition: JsValue, fields: map<string, JsValue>)

  /**
   * `haversineDistance(latitude1, longitude1, latitude2, longitude2)`. Each
   * argument goes through `parseFloat`; a NaN or infinite coordinate reaches a
   * sine and makes the whole result NaN. The result is never infinite.
   */
  function HaversineDistance(latitude1: JsValue, longitude1: JsValue, latitude2: JsValue, longitude2: JsValue,
                             env: GeoEnv): (d: JsNumber)
    ensures d.NaN? || d.Finite?
    ensures d.Finite? ==>
      && ParseFloat(latitude1, env.parseString).Finite? && ParseFloat(longitude1, env.parseString).Finite?
      && ParseFloat(latitude2, env.parseString).Finite? && ParseFloat(longitude2, env.parseString).Finite?
  {
    var lat1 := ParseFloat(latitude1, env.parseString);
    var lon1 := ParseFloat(longitude1, env.parseString);
    var lat2 := ParseFloat(latitude2, env.parseString);
    var lon2 := ParseFloat(longitude2, env.parseString);
    if lat1.Finite? && lon1.Finite? && lat2.Finite? && lon2.Finite? then
      match env.arc(lat1.value, lon1.value, lat2.value, lon2.value)
      case Some(km) => Finite(km)
      case None => NaN
    else
      NaN
  }

  /** The distance the filter computes for a ticket: the user's point first, the ticket's second. */
  function DistanceTo(t: Ticket, userLat: JsValue, userLon: JsValue, env: GeoEnv): JsNumber
  {
    HaversineDistance(userLat, userLon, t.latitudePosition, t.longitudePosition, env)
  }

  /** The filter's callback: `distance <= maxDistance`. */
  predicate IsNearby(t: Ticket, userLat: JsValue, userLon: JsValue, radius: JsNumber, env: GeoEnv)
  {
    AtMost(DistanceTo(t, userLat, userLon, env), radius)
  }

  /** `tickets.filter(...)` against an already parsed radius. */
  function KeepNearby(tickets: seq<Ticket>, userLat: JsValue, userLon: JsValue, radius: JsNumber, env: GeoEnv)
    : (nearby: seq<Ticket>)
    ensures IsSubsequence(nearby, tickets)
    ensures forall t :: t in nearby ==> IsNearby(t, userLat, userLon, radius, env)
    ensures forall t :: t in tickets && IsNearby(t, userLat, userLon, radius, env) ==> t in nearby
    decreases |tickets|
  {
    if |tickets| == 0 then []
    else
      var rest := KeepNearby(tickets[1..], userLat, userLon, radius, env);
      assert forall t :: t in tickets ==> t == tickets[0] || t in tickets[1..];
      if IsNearby(tickets[0], userLat, userLon, radius, env) then [tickets[0]] + rest else rest
  }

  /**
   * `findNearbyTickets(tickets, userLat, userLon, maxDistance)`: the tickets,
   * in order, whose distance is `<=` the radius `parseFloat` reads from
   * `maxDistance`.
   */
  function NearbyTickets(tickets: seq<Ticket>, userLat: JsValue, userLon: JsValue, maxDistance: JsValue, env: GeoEnv)
    : (nearby: seq<Ticket>)
    ensures IsSubsequence(nearby, tickets)
    ensures forall t :: t in nearby ==> IsNearby(t, userLat, userLon, ParseFloat(maxDistance, env.parseString), env)
    ensures forall t :: t in tickets && IsNearby(t, userLat, userLon, ParseFloat(maxDistance, env.parseString), env)
                        ==> t in nearby
  {
    KeepNearby(tickets, userLat, userLon, ParseFloat(maxDistance, env.parseString), env)
  }

  /**
   * What the filter returns, stated over real numbers: an order-preserving
   * selection of the input, each selected ticket at a finite distance no greater
   * than the radius (the boundary included), and every such ticket selected.
   */
  lemma NearbyTicketsSpec(tickets: seq<Ticket>, userLat: JsValue, userLon: JsValue, maxDistance: JsValue, env: GeoEnv)
    ensures var nearby := NearbyTickets(tickets, userLat, userLon, maxDistance, env);
            var radius := ParseFloat(maxDistance, env.parseString);
            && IsSubsequence(nearby, tickets)
            && (forall t :: t in nearby ==>
                  var d := DistanceTo(t, userLat, userLon, env);
                  d.Finite? && (radius.PosInfinity? || (radius.Finite? && d.value <= radius.value)))
            && (forall t :: t in tickets && DistanceTo(t, userLat, userLon, env).Finite? &&
                  (radius.PosInfinity? || (radius.Finite? && DistanceTo(t, userLat, userLon, env).value <= radius.value))
                  ==> t in nearby)
  {
  }

  /** A radius that `parseFloat` cannot read (NaN) selects no ticket at all. */
  lemma {:induction false} UnparsableRadiusSelectsNothing(tickets: seq<Ticket>, userLat: JsValue, userLon: JsValue, maxDistance: JsValue,
                                       env: GeoEnv)
    requires ParseFloat(maxDistance, env.parseString).NaN?
    ensures NearbyTickets(tickets, userLat, userLon, maxDistance, env) == []
    decreases |tickets|
  {
    if |tickets| > 0 {
      UnparsableRadiusSelectsNothing(tickets[1..], userLat, userLon, maxDistance, env);
    }
  }

  /** A ticket whose stored position `parseFloat` cannot read (NaN) is never returned. */
  lemma UnparsablePositionNeverNearby(tickets: seq<Ticket>, userLat: JsValue, userLon: JsValue, maxDistance: JsValue,
                                      env: GeoEnv, t: Ticket)
    requires ParseFloat(t.latitudePosition, env.parseString).NaN? || ParseFloat(t.longitudePosition, env.parseString).NaN?
    ensures t !in NearbyTickets(tickets, userLat, userLon, maxDistance, env)
  {
  }

  /** Growing the radius never loses a ticket: the smaller radius's result is a subsequence of the larger's. */
  lemma {:induction false} KeepNearbyMonotonic(tickets: seq<Ticket>, userLat: JsValue, userLon: JsValue,
                                               radius: JsNumber, radius': JsNumber, env: GeoEnv)
    requires AtMost(radius, radius')
    ensures IsSubsequence(KeepNearby(tickets, userLat, userLon, radius, env),
                          KeepNearby(tickets, userLat, userLon, radius', env))
    decreases |tickets|
  {
    if |tickets| > 0 {
      var t := tickets[0];
      KeepNearbyMonotonic(tickets[1..], userLat, userLon, radius, radius', env);
      if IsNearby(t, userLat, userLon, radius, env) {
        AtMostTransitive(DistanceTo(t, userLat, userLon, env), radius, radius');
      }
    }
  }

  /** `findNearbyTickets` is monotonic in the parsed radius. */
  lemma NearbyTicketsMonotonic(tickets: seq<Ticket>, userLat: JsValue, userLon: JsValue,
                               maxDistance: JsValue, maxDistance': JsValue, env: GeoEnv)
    requires AtMost(ParseFloat(maxDistance, env.parseString), ParseFloat(maxDistance', env.parseString))
    ensures IsSubsequence(NearbyTickets(tickets, userLat, userLon, maxDistance, env),
                          NearbyTickets(tickets, userLat, userLon, maxDistance', env))
  {
    KeepNearbyMonotonic(tickets, userLat, userLon, ParseFloat(maxDistance, env.parseString),
                        ParseFloat(maxDistance', env.parseString), env);
  }

  /** Filtering a concatenation filters each part independently. */
  lemma {:induction false} NearbyTicketsConcat(a: seq<Ticket>, b: seq<Ticket>, userLat: JsValue, userLon: JsValue,
                                               maxDistance: JsValue, env: GeoEnv)
    ensures NearbyTickets(a + b, userLat, userLon, maxDistance, env)
         == NearbyTickets(a, userLat, userLon, maxDistance, env) + NearbyTickets(b, userLat, userLon, maxDistance, env)
    decreases |a|
  {
    if |a| == 0 {
      assert a + b == b;
    } else {
      assert (a + b)[0] == a[0];
      assert (a + b)[1..] == a[1..] + b;
      NearbyTicketsConcat(a[1..], b, userLat, userLon, maxDistance, env);
    }
  }

  /** Filtering an already filtered list changes nothing. */
  lemma {:induction false} NearbyTicketsIdempotent(tickets: seq<Ticket>, userLat: JsValue, userLon: JsValue,
                                                   maxDistance: JsValue, env: GeoEnv)
    ensures var nearby := NearbyTickets(tickets, userLat, userLon, maxDistance, env);
            NearbyTickets(nearby, userLat, userLon, maxDistance, env) == nearby
    decreases |tickets|
  {
    if |tickets| > 0 {
      NearbyTicketsIdempotent(tickets[1..], userLat, userLon, maxDistance, env);
      var rest := NearbyTickets(tickets[1..], userLat, userLon, maxDistance, env);
      if IsNearby(tickets[0], userLat, userLon, ParseFloat(maxDistance, env.parseString), env) {
        assert ([tickets[0]] + rest)[1..] == rest;
      }
    }
  }

}

=== FILE: joi.dfy ===
/**
 * The part of the Joi schema library's semantics that the two controllers rely
 * on. A key's value is checked in this order: presence (`any.required` for
 * `undefined`), then the `valid(...)` list (`any.only`), then the base type
 * (`string.base`, `string.empty`, `number.base`, `number.unsafe`), then the
 * rules (`min`, `max`, `email`); a failed base type skips the rules. An object
 * schema checks its declared keys in declaration order, then reports every key
 * it does not declare. Each failure is one message; a key's custom message
 * replaces the library default, which names the key in double quotes.
 */
module Joi {
  import opened Options
  import opened JsValues
  import opened Subsequences

  /** One own property of a request body. */
  type Entry = (string, JsValue)

  /** Entries `i` and `j` do not share a key. */
  predicate DistinctKeysAt(entries: seq<Entry>, i: nat, j: nat)
    requires i < |entries| && j < |entries|
  {
    entries[i].0 != entries[j].0
  }

  /** No key occurs twice, as in any JavaScript object. */
  predicate KeysDistinct(entries: seq<Entry>)
  {
    forall i: nat, j: nat | i < j < |entries| :: DistinctKeysAt(entries, i, j)
  }

  /**
   * A parsed request body: a plain JavaScript object's own properties, in the
   * order `Object.keys` enumerates them (keys that are array indices first, in
   * ascending numeric order, then the other keys in insertion order).
   */
  type Body = entries: seq<Entry> | KeysDistinct(entries) witness []

  /** Joi's default limit for `number.unsafe`: `Number.MAX_SAFE_INTEGER`. */
  const MaxSafeInteger: real := 9007199254740991.0

  /** Entry `i` is the first one with key `key`. */
  predicate FirstKeyAt(entries: seq<Entry>, key: string, i: nat)
    requires i < |entries|
  {
    entries[i].0 == key && forall j :: 0 <= j < i ==> entries[j].0 != key
  }

  /** `body[key]`: the property's value, or `undefined` when the body has no such key. */
  function Get(entries: seq<Entry>, key: string): (v: JsValue)
    ensures v == Undefined || (key, v) in entries
    ensures (forall i :: 0 <= i < |entries| ==> entries[i].0 != key) ==> v == Undefined
  {
    if |entries| == 0 then Undefined
    else if entries[0].0 == key then entries[0].1
    else Get(entries[1..], key)
  }

  /** `body[key]` is the value of the first entry with that key. */
  lemma {:induction false} GetFindsFirstMatch(entries: seq<Entry>, key: string, i: nat)
    requires i < |entries| && FirstKeyAt(entries, key, i)
    ensures Get(entries, key) == entries[i].1
    decreases i
  {
    if i > 0 {
      assert entries[0].0 != key;
      assert FirstKeyAt(entries[1..], key, i - 1) by {
        forall j | 0 <= j < i - 1
          ensures entries[1..][j].0 != key
        {
          assert entries[1..][j] == entries[j + 1];
        }
      }
      GetFindsFirstMatch(entries[1..], key, i - 1);
    }
  }

  /** In a body no key repeats, so every entry's value is what reading its key gives. */
  lemma GetInBody(body: Body, i: nat)
    requires i < |body|
    ensures Get(body, body[i].0) == body[i].1
  {
    forall j | 0 <= j < i
      ensures body[j].0 != body[i].0
    {
      assert DistinctKeysAt(body, j, i);
    }
    GetFindsFirstMatch(body, body[i].0, i);
  }

  /** How the library names a key in its default messages. */
  function Label(key: string): string
  {
    "\"" + key + "\""
  }

  function NotAllowedMessage(key: string): string
  {
    Label(key) + " is not allowed"
  }

  function MustBeStringMessage(key: string): string
  {
    Label(key) + " must be a string"
  }

  function EmptyStringMessage(key: string): string
  {
    Label(key) + " is not allowed to be empty"
  }

  function UnsafeNumberMessage(key: string): string
  {
    Label(key) + " must be a safe number"
  }

  /** The value a check of `Joi.string().required()` lets through: a non-empty string. */
  predicate IsNonEmptyString(v: JsValue)
  {
    v.Str? && v.s != ""
  }

  /**
   * `Joi.string().required()` on one value: `undefined` fails `any.required`,
   * `""` fails `string.empty`, any other non-string fails `string.base`.
   */
  function StringErrors(v: JsValue, key: string, requiredMessage: string, emptyMessage: string)
    : (errors: seq<string>)
    ensures errors == [] <==> IsNonEmptyString(v)
    ensures |errors| <= 1
    ensures v.Undefined? ==> errors == [requiredMessage]
    ensures v == Str("") ==> errors == [emptyMessage]
  {
    match v
    case Undefined => [requiredMessage]
    case Str(s) => if s == "" then [emptyMessage] else []
    case _ => [MustBeStringMessage(key)]
  }

  /**
   * `Joi.number()` conversion: a number is kept, a string is converted by the
   * library's numeric syntax (`coerce`, `None` when it is not numeric), any
   * other value is not a number.
   */
  function NumericValue(v: JsValue, coerce: string -> Option<real>): Option<real>
  {
    match v
    case Num(n) => Some(n)
    case Str(s) => coerce(s)
    case _ => None
  }

  /** A number outside the safe-integer range fails `number.unsafe` before any rule runs. */
  predicate IsSafeNumber(n: real)
  {
    -MaxSafeInteger <= n <= MaxSafeInteger
  }

  /** Different keys get different `object.unknown` messages. */
  lemma NotAllowedMessageInjective(key: string, key': string)
    requires NotAllowedMessage(key) == NotAllowedMessage(key')
    ensures key == key'
  {
    var m := NotAllowedMessage(key);
    assert |key| == |key'|;
    assert m[1..1 + |key|] == key;
    assert m[1..1 + |key'|] == key';
  }

  /** The `object.unknown` message of every key of `entries`, declared or not, in key order. */
  function KeyMessages(entries: seq<Entry>): (messages: seq<string>)
    ensures |messages| == |entries|
    ensures forall i {:trigger messages[i]} :: 0 <= i < |entries| ==> messages[i] == NotAllowedMessage(entries[i].0)
  {
    if |entries| == 0 then [] else [NotAllowedMessage(entries[0].0)] + KeyMessages(entries[1..])
  }

  /**
   * The `object.unknown` messages for the keys a schema does not declare, in
   * the body's key order: the message of every undeclared key and of no
   * declared one.
   */
  function UnknownKeyErrors(entries: seq<Entry>, known: set<string>): (errors: seq<string>)
    ensures |errors| <= |entries|
    ensures errors == [] <==> forall i :: 0 <= i < |entries| ==> entries[i].0 in known
    ensures forall i :: 0 <= i < |entries| && entries[i].0 !in known ==> NotAllowedMessage(entries[i].0) in errors
    ensures forall m :: m in errors ==> exists i :: 0 <= i < |entries| && entries[i].0 !in known
                                                    && m == NotAllowedMessage(entries[i].0)
  {
    if |entries| == 0 then []
    else
      var rest := UnknownKeyErrors(entries[1..], known);
      assert forall i :: 1 <= i < |entries| ==> entries[i] == entries[1..][i - 1];
      if entries[0].0 in known then rest else [NotAllowedMessage(entries[0].0)] + rest
  }

  /** The undeclared keys' messages come in key order: they are a selection, in order, of all keys' messages. */
  lemma {:induction false} UnknownKeyErrorsInKeyOrder(entries: seq<Entry>, known: set<string>)
    ensures IsSubsequence(UnknownKeyErrors(entries, known), KeyMessages(entries))
    decreases |entries|
  {
    if |entries| > 0 {
      UnknownKeyErrorsInKeyOrder(entries[1..], known);
      var rest := UnknownKeyErrors(entries[1..], known);
      var messages := KeyMessages(entries);
      assert messages[1..] == KeyMessages(entries[1..]);
      if entries[0].0 !in known {
        assert UnknownKeyErrors(entries, known)[1..] == rest;
      }
    }
  }

  /**
   * In a body, where no key repeats, no message repeats either: each undeclared
   * key is reported exactly once.
   */
  lemma UnknownKeyMessagesDistinct(body: Body, known: set<string>)
    ensures NoRepeats(UnknownKeyErrors(body, known))
  {
    var messages := KeyMessages(body);
    forall i, j | 0 <= i < j < |messages|
      ensures messages[i] != messages[j]
    {
      assert DistinctKeysAt(body, i, j);
      if messages[i] == messages[j] {
        NotAllowedMessageInjective(body[i].0, body[j].0);
      }
    }
    UnknownKeyErrorsInKeyOrder(body, known);
    SubsequenceNoRepeats(UnknownKeyErrors(body, known), messages);
  }

  /** `parts.join(separator)`. */
  function Join(parts: seq<string>, separator: string): (joined: string)
    ensures |parts| == 0 ==> joined == ""
    ensures |parts| == 1 ==> joined == parts[0]
    ensures |parts| > 0 ==> parts[0] <= joined
    ensures |parts| > 1 ==> parts[0] + separator <= joined
  {
    if |parts| == 0 then ""
    else if |parts| == 1 then parts[0]
    else parts[0] + separator + Join(parts[1..], separator)
  }

  /** `needle` occurs in `haystack` starting at index `start`. */
  predicate OccursAt(needle: string, haystack: string, start: int)
  {
    0 <= start <= |haystack| - |needle| && haystack[start..start + |needle|] == needle
  }

  /** `haystack.includes(needle)`. */
  ghost predicate Contains(haystack: string, needle: string)
  {
    exists start :: OccursAt(needle, haystack, start)
  }

  /** Every part appears, whole, in the joined string. */
  lemma {:induction false} JoinContainsParts(parts: seq<string>, separator: string, k: nat)
    requires k < |parts|
    ensures Contains(Join(parts, separator), parts[k])
    decreases |parts|
  {
    var joined := Join(parts, separator);
    if k == 0 {
      assert OccursAt(parts[0], joined, 0);
    } else {
      var rest := Join(parts[1..], separator);
      JoinContainsParts(parts[1..], separator, k - 1);
      assert parts[1..][k - 1] == parts[k];
      var start :| OccursAt(parts[k], rest, start);
      var offset := |parts[0]| + |separator|;
      assert joined == parts[0] + separator + rest;
      assert joined[offset + start..offset + start + |parts[k]|] == rest[start..start + |parts[k]|];
      assert OccursAt(parts[k], joined, offset + start);
    }
  }

}

=== FILE: js_values.dfy ===
/**
 * The slice of JavaScript's value semantics the backend's decision logic depends on:
 * numbers as IEEE doubles (with NaN and the infinities), the `<=` comparison,
 * `parseFloat` and the implicit `ToNumber` conversion of the relational operators.
 *
 * Finite doubles are modelled as exact reals; rounding is not modelled. The
 * conversion of a string to a number follows a grammar this model does not
 * reproduce, so it is a parameter wherever it is needed.
 */
module JsValues {

  /** A JavaScript number. */
  datatype JsNumber = NaN | NegInfinity | Finite(value: real) | PosInfinity

  /**
   * A value found in a parsed request body or a stored record. `Num` carries
   * a finite number; a body value that parses to an infinity (such as the JSON
   * literal `1e400`) is not represented.
   */
  datatype JsValue = Undefined | Null | Bool(b: bool) | Num(n: real) | Str(s: string)

  /**
   * JavaScript's `a <= b` on two numbers: false as soon as either side is NaN;
   * otherwise the order of the extended reals, the infinities at the ends.
   */
  predicate AtMost(a: JsNumber, b: JsNumber): (holds: bool)
    ensures holds ==> !a.NaN? && !b.NaN?
    ensures a.Finite? && b.Finite? ==> (holds <==> a.value <= b.value)
    ensures !a.NaN? && b.PosInfinity? ==> holds
    ensures a.NegInfinity? && !b.NaN? ==> holds
    ensures a.PosInfinity? && !b.PosInfinity? ==> !holds
    ensures b.NegInfinity? && !a.NegInfinity? ==> !holds
  {
    match (a, b)
    case (NaN, _) => false
    case (_, NaN) => false
    case (NegInfinity, _) => true
    case (_, PosInfinity) => true
    case (Finite(x), Finite(y)) => x <= y
    case _ => false
  }

  /** `<=` between numbers is a total preorder on everything but NaN. */
  lemma AtMostTransitive(a: JsNumber, b: JsNumber, c: JsNumber)
    requires AtMost(a, b) && AtMost(b, c)
    ensures AtMost(a, c)
  {
  }

  /** `<=` never holds with NaN on either side, and holds reflexively otherwise. */
  lemma AtMostNaN(a: JsNumber)
    ensures !AtMost(a, NaN) && !AtMost(NaN, a)
    ensures !a.NaN? ==> AtMost(a, a)
  {
  }

  /** Any two numbers other than NaN are comparable one way or the other. */
  lemma AtMostTotal(a: JsNumber, b: JsNumber)
    requires !a.NaN? && !b.NaN?
    ensures AtMost(a, b) || AtMost(b, a)
  {
  }

  /**
   * `parseFloat(v)`: the argument is first turned into a string. `undefined`,
   * `null` and the booleans print as words that do not start a number, and a
   * finite number prints as digits that parse back to itself; the parse of an
   * arbitrary string is the parameter `parseString`.
   */
  function ParseFloat(v: JsValue, parseString: string -> JsNumber): (n: JsNumber)
    ensures v.Num? ==> n == Finite(v.n)
    ensures v.Str? ==> n == parseString(v.s)
    ensures !v.Num? && !v.Str? ==> n.NaN?
  {
    match v
    case Num(x) => Finite(x)
    case Str(s) => parseString(s)
    case _ => NaN
  }

  /**
   * The `ToNumber` conversion applied to the operands of `<`, `<=`, `>`, `>=`
   * when the other operand is a number: `undefined` becomes NaN, `null` and
   * `false` become 0, `true` becomes 1; `stringToNumber` is `Number(s)`.
   */
  function ToNumber(v: JsValue, stringToNumber: string -> JsNumber): (n: JsNumber)
    ensures v.Num? ==> n == Finite(v.n)
    ensures v.Str? ==> n == stringToNumber(v.s)
    ensures !v.Str? ==> (n.NaN? <==> v.Undefined?)
    ensures v.Null? || v == Bool(false) ==> n == Finite(0.0)
    ensures v == Bool(true) ==> n == Finite(1.0)
  {
    match v
    case Undefined => NaN
    case Null => Finite(0.0)
    case Bool(b) => if b then Finite(1.0) else Finite(0.0)
    case Num(x) => Finite(x)
    case Str(s) => stringToNumber(s)
  }

  /**
   * Where the two conversions part: on a value that is not a string they agree
   * exactly for numbers and `undefined`; `parseFloat(null)` and
   * `parseFloat(true)` are NaN where `Number(null)` and `Number(true)` are 0 and 1.
   */
  lemma ParseFloatVersusToNumber(v: JsValue, parseString: string -> JsNumber, stringToNumber: string -> JsNumber)
    requires !v.Str?
    ensures ParseFloat(v, parseString) == ToNumber(v, stringToNumber) <==> v.Num? || v.Undefined?
  {
  }

}

=== FILE: number.dfy ===
/**
 * The coordinate range checks of src/helper/number.js. Both compare their
 * argument with number literals, so JavaScript first converts it with
 * `ToNumber`: a numeric string is read as a number, `undefined` or an
 * unreadable string becomes NaN, and `null` becomes 0.
 */
module Number {
  import opened JsValues

  const MinLatitude: real := -90.0
  const MaxLatitude: real := 90.0
  const MinLongitude: real := -180.0
  const MaxLongitude: real := 180.0

  /** `isValidLatitude(lat)`: `lat >= -90 && lat <= 90`. */
  function IsValidLatitude(lat: JsValue, stringToNumber: string -> JsNumber): (valid: bool)
    ensures var n := ToNumber(lat, stringToNumber);
            valid <==> n.Finite? && MinLatitude <= n.value <= MaxLatitude
  {
    var n := ToNumber(lat, stringToNumber);
    AtMost(Finite(MinLatitude), n) && AtMost(n, Finite(MaxLatitude))
  }

  /** `isValidLongitude(lon)`: `lon >= -180 && lon <= 180`. */
  function IsValidLongitude(lon: JsValue, stringToNumber: string -> JsNumber): (valid: bool)
    ensures var n := ToNumber(lon, stringToNumber);
            valid <==> n.Finite? && MinLongitude <= n.value <= MaxLongitude
  {
    var n := ToNumber(lon, stringToNumber);
    AtMost(Finite(MinLongitude), n) && AtMost(n, Finite(MaxLongitude))
  }

  /** On a number the checks are the closed intervals [-90, 90] and [-180, 180]; both ends are accepted. */
  lemma NumericRanges(x: real, stringToNumber: string -> JsNumber)
    ensures IsValidLatitude(Num(x), stringToNumber) <==> -90.0 <= x <= 90.0
    ensures IsValidLongitude(Num(x), stringToNumber) <==> -180.0 <= x <= 180.0
    ensures IsValidLatitude(Num(-90.0), stringToNumber) && IsValidLatitude(Num(90.0), stringToNumber)
    ensures IsValidLongitude(Num(-180.0), stringToNumber) && IsValidLongitude(Num(180.0), stringToNumber)
  {
  }

  /** Values just outside a range are rejected. */
  lemma JustOutsideRejected(stringToNumber: string -> JsNumber)
    ensures !IsValidLatitude(Num(90.0001), stringToNumber) && !IsValidLatitude(Num(-90.0001), stringToNumber)
    ensures !IsValidLongitude(Num(180.0001), stringToNumber) && !IsValidLongitude(Num(-180.0001), stringToNumber)
  {
  }

  /** Every valid latitude is also a valid longitude. */
  lemma LatitudeIsLongitude(v: JsValue, stringToNumber: string -> JsNumber)
    requires IsValidLatitude(v, stringToNumber)
    ensures IsValidLongitude(v, stringToNumber)
  {
  }

  /**
   * Whatever converts to NaN or an infinity (`undefined`, an unreadable string)
   * is rejected by both checks, while `null` converts to 0 and is accepted.
   */
  lemma NonFiniteRejected(v: JsValue, stringToNumber: string -> JsNumber)
    ensures !ToNumber(v, stringToNumber).Finite? ==>
              !IsValidLatitude(v, stringToNumber) && !IsValidLongitude(v, stringToNumber)
    ensures !IsValidLatitude(Undefined, stringToNumber) && !IsValidLongitude(Undefined, stringToNumber)
    ensures IsValidLatitude(Null, stringToNumber) && IsValidLongitude(Null, stringToNumber)
  {
  }

}

=== FILE: options.dfy ===
/** The optional-value datatype shared by the modules of this model. */
module Options {

  datatype Option<+T> = None | Some(value: T)

}

=== FILE: subsequences.dfy ===
/** Order-preserving selections of a sequence's elements. */
module Subsequences {

  /**
   * `a` is obtained from `b` by deleting elements, keeping the rest in order:
   * either `b`'s head is kept as `a`'s head, or it is skipped.
   */
  predicate IsSubsequence<T(==)>(a: seq<T>, b: seq<T>)
    decreases |b|
  {
    if |b| == 0 then |a| == 0
    else (|a| > 0 && a[0] == b[0] && IsSubsequence(a[1..], b[1..])) || IsSubsequence(a, b[1..])
  }

  /** No element occurs twice. */
  predicate NoRepeats<T(==)>(s: seq<T>)
  {
    forall i, j | 0 <= i < j < |s| :: s[i] != s[j]
  }

  /** A subsequence holds only elements of the sequence it was taken from, and is no longer. */
  lemma {:induction false} SubsequenceMembers<T>(a: seq<T>, b: seq<T>)
    requires IsSubsequence(a, b)
    ensures |a| <= |b|
    ensures forall x :: x in a ==> x in b
    decreases |b|
  {
    if |b| > 0 {
      if |a| > 0 && a[0] == b[0] && IsSubsequence(a[1..], b[1..]) {
        SubsequenceMembers(a[1..], b[1..]);
        assert a == [a[0]] + a[1..];
      } else {
        SubsequenceMembers(a, b[1..]);
      }
    }
  }

  /** Deleting elements cannot create a repetition. */
  lemma {:induction false} SubsequenceNoRepeats<T>(a: seq<T>, b: seq<T>)
    requires IsSubsequence(a, b) && NoRepeats(b)
    ensures NoRepeats(a)
    decreases |b|
  {
    if |b| > 0 {
      assert NoRepeats(b[1..]);
      if |a| > 0 && a[0] == b[0] && IsSubsequence(a[1..], b[1..]) {
        SubsequenceNoRepeats(a[1..], b[1..]);
        SubsequenceMembers(a[1..], b[1..]);
        assert b[0] !in b[1..];
        forall i, j | 0 <= i < j < |a|
          ensures a[i] != a[j]
        {
          if i == 0 {
            assert a[j] == a[1..][j - 1];
          } else {
            assert a[i] == a[1..][i - 1] && a[j] == a[1..][j - 1];
          }
        }
      } else {
        SubsequenceNoRepeats(a, b[1..]);
      }
    }
  }

}

=== FILE: ticket_controller.dfy ===
/**
 * The validation step of `create` in src/controllers/ticket.controller.js. The
 * body is checked against a schema of three keys with the library's default
 * `abortEarly`, so only the first failure is reported; a failure replies 403
 * with the error's `toString()`. A body that passes gets no reply at all: the
 * success reply is commented out.
 */
module TicketController {
  import opened Options
  import opened JsValues
  import opened Joi

  const TitleKey: string := "ticketTitle"
  const PriceKey: string := "ticketPrice"
  const DescriptionKey: string := "ticketDescription"
  const TicketKeys: set<string> := {TitleKey, PriceKey, DescriptionKey}

  const MinPrice: real := 0.0
  const MaxPrice: real := 100000000.0

  /** The custom messages; their double quotes are part of the text. */
  const TitleRequiredMessage: string := "\"Nama tiket wajib diisi\""
  const PriceRequiredMessage: string := "\"Harga tiket wajib diisi\""
  const PriceNotNumberMessage: string := "\"Harga tiket wajib diisi menggunakan angka\""
  const PriceBelowMinMessage: string := "\"Minimal harga tiket 0\""
  const PriceAboveMaxMessage: string := "\"Maximal harga tiket 100000000\""
  const DescriptionRequiredMessage: string := "\"Deksripsi wajib diisi\""

  /** What `ValidationError.prototype.toString()` puts before the message. */
  const ErrorPrefix: string := "ValidationError: "

  const ForbiddenStatus: nat := 403

  /** The handler's reply: a status with a text body, or none at all. */
  datatype CreateOutcome = Respond(status: nat, text: string) | NoResponse

  /**
   * `Joi.number().min(0).max(100000000).required()` on the price: at most one
   * message, none exactly for a value that is (or converts to) a number in
   * [0, 100000000].
   */
  function PriceErrors(v: JsValue, coerce: string -> Option<real>): (errors: seq<string>)
    ensures |errors| <= 1
    ensures errors == [] <==> var n := NumericValue(v, coerce); n.Some? && MinPrice <= n.value <= MaxPrice
    ensures v.Undefined? ==> errors == [PriceRequiredMessage]
    ensures !v.Undefined? && NumericValue(v, coerce).None? ==> errors == [PriceNotNumberMessage]
  {
    if v.Undefined? then [PriceRequiredMessage]
    else match NumericValue(v, coerce)
      case None => [PriceNotNumberMessage]
      case Some(n) =>
        if !IsSafeNumber(n) then [UnsafeNumberMessage(PriceKey)]
        else if n < MinPrice then [PriceBelowMinMessage]
        else if n > MaxPrice then [PriceAboveMaxMessage]
        else []
  }

  /**
   * The bodies the schema admits, stated directly: a non-empty title string, a
   * price that is (or converts to) a number in [0, 100000000], a non-empty
   * description string, and no other key.
   */
  predicate AcceptableTicket(body: Body, coerce: string -> Option<real>)
  {
    var price := NumericValue(Get(body, PriceKey), coerce);
    && IsNonEmptyString(Get(body, TitleKey))
    && price.Some? && MinPrice <= price.value <= MaxPrice
    && IsNonEmptyString(Get(body, DescriptionKey))
    && forall i :: 0 <= i < |body| ==> body[i].0 in TicketKeys
  }

  /**
   * Every failure of the schema, in the order the library finds them: none
   * exactly for the bodies the schema admits.
   */
  function Violations(body: Body, coerce: string -> Option<real>): (violations: seq<string>)
    ensures violations == [] <==> AcceptableTicket(body, coerce)
  {
    StringErrors(Get(body, TitleKey), TitleKey, TitleRequiredMessage, TitleRequiredMessage)
    + PriceErrors(Get(body, PriceKey), coerce)
    + StringErrors(Get(body, DescriptionKey), DescriptionKey, DescriptionRequiredMessage, DescriptionRequiredMessage)
    + UnknownKeyErrors(body, TicketKeys)
  }

  /** `create`'s validation step. */
  function Create(body: Body, coerce: string -> Option<real>): (outcome: CreateOutcome)
    ensures outcome.NoResponse? <==> AcceptableTicket(body, coerce)
    ensures outcome.Respond? ==> outcome.status == ForbiddenStatus && ErrorPrefix <= outcome.text
    ensures outcome.Respond? ==> exists m :: m in Violations(body, coerce) && outcome.text == ErrorPrefix + m
  {
    var violations := Violations(body, coerce);
    if violations == [] then NoResponse
    else
      assert violations[0] in violations;
      Respond(ForbiddenStatus, ErrorPrefix + violations[0])
  }

  /** The title is checked first: a missing, empty or non-string title is what gets reported. */
  lemma TitleReportedFirst(body: Body, coerce: string -> Option<real>)
    requires !IsNonEmptyString(Get(body, TitleKey))
    ensures var title := Get(body, TitleKey);
            Create(body, coerce) == Respond(ForbiddenStatus, ErrorPrefix +
              if title.Undefined? || title == Str("") then TitleRequiredMessage else MustBeStringMessage(TitleKey))
  {
  }

  /**
   * With a good title, the price is reported next: missing, not a number, or
   * out of [0, 100000000].
   */
  lemma PriceReportedSecond(body: Body, coerce: string -> Option<real>)
    requires IsNonEmptyString(Get(body, TitleKey))
    ensures var price := Get(body, PriceKey);
            var n := NumericValue(price, coerce);
            && (price.Undefined? ==> Create(body, coerce) == Respond(ForbiddenStatus, ErrorPrefix + PriceRequiredMessage))
            && (!price.Undefined? && n.None? ==>
                  Create(body, coerce) == Respond(ForbiddenStatus, ErrorPrefix + PriceNotNumberMessage))
            && (n.Some? && IsSafeNumber(n.value) && n.value < MinPrice ==>
                  Create(body, coerce) == Respond(ForbiddenStatus, ErrorPrefix + PriceBelowMinMessage))
            && (n.Some? && IsSafeNumber(n.value) && n.value > MaxPrice ==>
                  Create(body, coerce) == Respond(ForbiddenStatus, ErrorPrefix + PriceAboveMaxMessage))
  {
  }

  /** With a good title and price, a missing or empty description is reported. */
  lemma DescriptionReportedThird(body: Body, coerce: string -> Option<real>)
    requires IsNonEmptyString(Get(body, TitleKey))
    requires var n := NumericValue(Get(body, PriceKey), coerce); n.Some? && MinPrice <= n.value <= MaxPrice
    requires Get(body, DescriptionKey).Undefined? || Get(body, DescriptionKey) == Str("")
    ensures Create(body, coerce) == Respond(ForbiddenStatus, ErrorPrefix + DescriptionRequiredMessage)
  {
  }

  /** With every declared key acceptable, the first undeclared key of the body is reported. */
  lemma UnknownKeyReportedLast(body: Body, coerce: string -> Option<real>, k: nat)
    requires IsNonEmptyString(Get(body, TitleKey)) && IsNonEmptyString(Get(body, DescriptionKey))
    requires var n := NumericValue(Get(body, PriceKey), coerce); n.Some? && MinPrice <= n.value <= MaxPrice
    requires k < |body| && body[k].0 !in TicketKeys
    requires forall i :: 0 <= i < k ==> body[i].0 in TicketKeys
    ensures Create(body, coerce) == Respond(ForbiddenStatus, ErrorPrefix + NotAllowedMessage(body[k].0))
  {
    DeclaredKeysPass(body, coerce);
    FirstUnknownKey(body, k);
    CreateReportsFirstViolation(body, coerce);
  }

  /** With the default early abort, the reply carries the first failure found. */
  lemma CreateReportsFirstViolation(body: Body, coerce: string -> Option<real>)
    ensures var violations := Violations(body, coerce);
            Create(body, coerce) == if violations == [] then NoResponse
                                    else Respond(ForbiddenStatus, ErrorPrefix + violations[0])
  {
  }

  /** When the two text keys pass, only the price and undeclared keys can fail. */
  lemma TextKeysPass(body: Body, coerce: string -> Option<real>)
    requires IsNonEmptyString(Get(body, TitleKey)) && IsNonEmptyString(Get(body, DescriptionKey))
    ensures Violations(body, coerce) == PriceErrors(Get(body, PriceKey), coerce) + UnknownKeyErrors(body, TicketKeys)
  {
    var title := StringErrors(Get(body, TitleKey), TitleKey, TitleRequiredMessage, TitleRequiredMessage);
    var description := StringErrors(Get(body, DescriptionKey), DescriptionKey, DescriptionRequiredMessage,
                                    DescriptionRequiredMessage);
    var price := PriceErrors(Get(body, PriceKey), coerce);
    var unknown := UnknownKeyErrors(body, TicketKeys);
    assert title == [] && description == [];
    assert Violations(body, coerce) == title + price + description + unknown;
  }

  /** When the three declared keys pass, only undeclared keys can fail. */
  lemma DeclaredKeysPass(body: Body, coerce: string -> Option<real>)
    requires IsNonEmptyString(Get(body, TitleKey)) && IsNonEmptyString(Get(body, DescriptionKey))
    requires var n := NumericValue(Get(body, PriceKey), coerce); n.Some? && MinPrice <= n.value <= MaxPrice
    ensures Violations(body, coerce) == UnknownKeyErrors(body, TicketKeys)
  {
    TextKeysPass(body, coerce);
    AcceptablePriceHasNoErrors(Get(body, PriceKey), coerce);
  }

  lemma AcceptablePriceHasNoErrors(price: JsValue, coerce: string -> Option<real>)
    requires var n := NumericValue(price, coerce); n.Some? && MinPrice <= n.value <= MaxPrice
    ensures PriceErrors(price, coerce) == []
  {
  }

  lemma {:induction false} FirstUnknownKey(entries: seq<Entry>, k: nat)
    requires k < |entries| && entries[k].0 !in TicketKeys
    requires forall i :: 0 <= i < k ==> entries[i].0 in TicketKeys
    ensures var errors := UnknownKeyErrors(entries, TicketKeys);
            |errors| > 0 && errors[0] == NotAllowedMessage(entries[k].0)
    decreases k
  {
    if k > 0 {
      FirstUnknownKey(entries[1..], k - 1);
    }
  }

  /**
   * With a good title and description and no other key, a numeric price decides
   * the outcome alone: [0, 100000000] with both ends included; -1 and 100000001
   * are refused with the min and max messages.
   */
  lemma PriceRange(body: Body, coerce: string -> Option<real>, x: real)
    requires IsNonEmptyString(Get(body, TitleKey)) && IsNonEmptyString(Get(body, DescriptionKey))
    requires forall i :: 0 <= i < |body| ==> body[i].0 in TicketKeys
    requires Get(body, PriceKey) == Num(x)
    ensures Create(body, coerce) == NoResponse <==> MinPrice <= x <= MaxPrice
    ensures x == 0.0 || x == 100000000.0 ==> Create(body, coerce) == NoResponse
    ensures x == -1.0 ==> Create(body, coerce) == Respond(ForbiddenStatus, ErrorPrefix + PriceBelowMinMessage)
    ensures x == 100000001.0 ==> Create(body, coerce) == Respond(ForbiddenStatus, ErrorPrefix + PriceAboveMaxMessage)
  {
    TextKeysPass(body, coerce);
    assert UnknownKeyErrors(body, TicketKeys) == [];
    NumericPriceErrors(x, coerce);
    CreateReportsFirstViolation(body, coerce);
  }

  /** The price rules on a number. */
  lemma NumericPriceErrors(x: real, coerce: string -> Option<real>)
    ensures PriceErrors(Num(x), coerce) == [] <==> MinPrice <= x <= MaxPrice
    ensures x == -1.0 ==> PriceErrors(Num(x), coerce) == [PriceBelowMinMessage]
    ensures x == 100000001.0 ==> PriceErrors(Num(x), coerce) == [PriceAboveMaxMessage]
  {
  }

}

=== FILE: ticket_route.dfy ===
/**
 * The upload gate of src/routes/ticket.route.js: multer's `fileFilter`
 * whitelist and size limit for the single `image_file` part, and the
 * `uploadMiddleware` callback that turns multer's outcome into a 400 reply or a
 * call to the next handler.
 */
module TicketRoute {
  import opened Options

  const AllowedMimeTypes: seq<string> := ["image/jpeg", "image/png", "image/jpg", "image/gif"]

  /** The `fileSize` limit, in bytes: 2 MiB. */
  const MaxFileSize: nat := 2 * 1024 * 1024

  /** The multer error code raised when a file exceeds `MaxFileSize`. */
  const LimitFileSize: string := "LIMIT_FILE_SIZE"

  const FileTooLargeMessage: string := "File size is too large. Maximum limit is 2MB."
  const InvalidFileTypeMessage: string := "Invalid file type. Allowed file types are: JPEG, PNG, JPG, GIF."

  /** A file part of the multipart request, as multer describes it. */
  datatype FilePart = FilePart(mimetype: string, size: nat)

  /** The `err` argument of multer's callback. */
  datatype UploadError = NoError | MulterError(code: string) | OtherError(message: string)

  /** What `uploadMiddleware` does: reply 400 with a JSON `message`, or call `next()`. */
  datatype Gate = Reject400(message: string) | Next

  /** `fileFilter`: accept the part exactly when its MIME type is on the whitelist (case-sensitive). */
  function FileFilter(mimetype: string): (accept: bool)
    ensures accept <==> (mimetype == "image/jpeg" || mimetype == "image/png" ||
                         mimetype == "image/jpg" || mimetype == "image/gif")
  {
    mimetype in AllowedMimeTypes
  }

  /**
   * Multer's handling of an `image_file` part with no other upload fault: the
   * filter runs first and a rejected part is dropped without an error; an
   * accepted part larger than the limit aborts with `LIMIT_FILE_SIZE`;
   * otherwise it becomes `req.file`.
   */
  function ReceiveImage(part: Option<FilePart>): (received: (UploadError, Option<FilePart>))
    ensures received.1.Some? <==> part.Some? && FileFilter(part.value.mimetype) && part.value.size <= MaxFileSize
    ensures received.1.Some? ==> received.1 == part
    ensures received.0 != NoError <==> part.Some? && FileFilter(part.value.mimetype) && part.value.size > MaxFileSize
    ensures received.0 != NoError ==> received.0 == MulterError(LimitFileSize)
  {
    match part
    case None => (NoError, None)
    case Some(p) =>
      if !FileFilter(p.mimetype) then (NoError, None)
      else if p.size > MaxFileSize then (MulterError(LimitFileSize), None)
      else (NoError, Some(p))
  }

  /**
   * `uploadMiddleware`'s callback. A size-limit error and any non-multer error
   * reply at once; a multer error with any other code falls through to the
   * `req.file` check, exactly as no error does.
   */
  function UploadGate(err: UploadError, file: Option<FilePart>): (gate: Gate)
    ensures gate == Next <==> file.Some? && (err.NoError? || (err.MulterError? && err.code != LimitFileSize))
    ensures err == MulterError(LimitFileSize) ==> gate == Reject400(FileTooLargeMessage)
    ensures err.OtherError? ==> gate == Reject400(err.message)
    ensures (err.NoError? || (err.MulterError? && err.code != LimitFileSize)) && file.None? ==>
              gate == Reject400(InvalidFileTypeMessage)
  {
    if err.MulterError? && err.code == LimitFileSize then Reject400(FileTooLargeMessage)
    else if err.OtherError? then Reject400(err.message)
    else if file.None? then Reject400(InvalidFileTypeMessage)
    else Next
  }

  /**
   * End to end for one uploaded part: a MIME type off the whitelist ends in the
   * invalid-type reply whatever its size, a whitelisted part over 2 MiB in the
   * size reply, a missing part in the invalid-type reply, and only a
   * whitelisted part of at most 2 MiB reaches the next handler.
   */
  lemma UploadOutcome(part: Option<FilePart>)
    ensures var (err, file) := ReceiveImage(part);
            UploadGate(err, file) ==
              if part.None? || !FileFilter(part.value.mimetype) then Reject400(InvalidFileTypeMessage)
              else if part.value.size > MaxFileSize then Reject400(FileTooLargeMessage)
              else Next
  {
  }

  /** The 2 MiB boundary itself is accepted; one byte more is refused. */
  lemma SizeBoundary(mimetype: string)
    requires FileFilter(mimetype)
    ensures UploadGate(ReceiveImage(Some(FilePart(mimetype, 2097152))).0,
                       ReceiveImage(Some(FilePart(mimetype, 2097152))).1) == Next
    ensures UploadGate(ReceiveImage(Some(FilePart(mimetype, 2097153))).0,
                       ReceiveImage(Some(FilePart(mimetype, 2097153))).1) == Reject400(FileTooLargeMessage)
  {
  }

}

=== FILE: user_controller.dfy ===
/**
 * User registration, `create` in src/controllers/user.controller.js. The body
 * is checked against a five-key schema with `abortEarly: false`, so every
 * failure is collected and the reply joins all their messages with ", ". Only
 * when every synchronous check passes does the schema's external rule look the
 * username up among the registered ones. A new user is stored under its
 * username with its name, email and hashed password, and the reply echoes the
 * username, name and email.
 *
 * The library's email syntax, the password hash and the store are parameters:
 * `isEmail`, `hash` and a `UserStore`.
 */
module UserController {
  import opened Options
  import opened JsValues
  import opened Joi

  const UsernameKey: string := "username"
  const NameKey: string := "name"
  const EmailKey: string := "email"
  const PasswordKey: string := "password"
  const ConfirmPasswordKey: string := "confirm_password"
  const UserKeys: set<string> := {UsernameKey, NameKey, EmailKey, PasswordKey, ConfirmPasswordKey}

  const MinPasswordLength: nat := 6

  const UsernameRequiredMessage: string := "Username is required"
  const NameRequiredMessage: string := "Nama is required"
  const EmailRequiredMessage: string := "Email is required"
  const EmailInvalidMessage: string := "Email is not valid"
  const PasswordRequiredMessage: string := "Password is required"
  const PasswordTooShortMessage: string := "Password must be contain at least 6 characters"
  const ConfirmPasswordRequiredMessage: string := "Confirm Password is required"
  const PasswordMismatchMessage: string := "Password not match"
  const UsernameTakenMessage: string := "Username already exist"
  const RegistrationSuccessMessage: string := "Registration Success"
  /** The reply's message when the joined messages are empty. */
  const FallbackMessage: string := "Validation error"
  const MessageSeparator: string := ", "

  /**
   * The outside world as seen by one registration: the usernames already
   * registered, and the message (if any) of the error thrown by the username
   * lookup, by `hashPassword`, and by the store's `set`.
   */
  datatype UserStore = UserStore(usernames: set<string>, lookupFault: Option<string>, hashFault: Option<string>,
                                 writeFault: Option<string>)

  /**
   * What the library appends to the message of an error thrown inside an
   * external rule before rethrowing it: the failing key's label in parentheses.
   */
  const ExternalRuleSuffix: string := " (" + UsernameKey + ")"

  /** The stored document, keyed by username: never the plaintext password. */
  datatype UserRecord = UserRecord(name: string, email: string, passwordHash: string)

  /** The `data` of the success reply. */
  datatype UserSummary = UserSummary(username: string, name: string, email: string)

  /** The reply: 200 with a summary, 400 or 500 with a message. */
  datatype Reply = Ok(message: string, data: UserSummary) | BadRequest(message: string) | ServerError(message: string)
  {
    function Status(): nat
    {
      match this
      case Ok(_, _) => 200
      case BadRequest(_) => 400
      case ServerError(_) => 500
    }
  }

  /** The reply, and the record the handler asked the store to write under a key. */
  datatype Registration = Registration(reply: Reply, write: Option<(string, UserRecord)>)

  /** The text of a string value (the checks have established it is one when it is used). */
  function Text(v: JsValue): string
  {
    if v.Str? then v.s else ""
  }

  /**
   * `Joi.string().email().required()`: at most one message, none exactly for a
   * non-empty string the email syntax accepts.
   */
  function EmailErrors(v: JsValue, isEmail: string -> bool): (errors: seq<string>)
    ensures |errors| <= 1
    ensures errors == [] <==> IsNonEmptyString(v) && isEmail(v.s)
    ensures v.Undefined? || v == Str("") ==> errors == [EmailRequiredMessage]
    ensures IsNonEmptyString(v) && !isEmail(v.s) ==> errors == [EmailInvalidMessage]
  {
    var base := StringErrors(v, EmailKey, EmailRequiredMessage, EmailRequiredMessage);
    if base != [] then base else if isEmail(v.s) then [] else [EmailInvalidMessage]
  }

  /**
   * `Joi.string().min(6).required()`: at most one message, none exactly for a
   * string of at least six characters.
   */
  function PasswordErrors(v: JsValue): (errors: seq<string>)
    ensures |errors| <= 1
    ensures errors == [] <==> v.Str? && |v.s| >= MinPasswordLength
    ensures v.Undefined? || v == Str("") ==> errors == [PasswordRequiredMessage]
    ensures v.Str? && 0 < |v.s| < MinPasswordLength ==> errors == [PasswordTooShortMessage]
  {
    var base := StringErrors(v, PasswordKey, PasswordRequiredMessage, PasswordRequiredMessage);
    if base != [] then base else if |v.s| < MinPasswordLength then [PasswordTooShortMessage] else []
  }

  /**
   * `Joi.string().valid(Joi.ref("password")).required()`. A value equal to the
   * password's skips the string check; any other defined value fails `any.only`
   * and, since the checks go on, also the string check when it is empty or not
   * a string.
   */
  function ConfirmPasswordErrors(v: JsValue, password: JsValue): (errors: seq<string>)
    ensures errors == [] <==> !v.Undefined? && v == password
    ensures v.Undefined? ==> errors == [ConfirmPasswordRequiredMessage]
    ensures !v.Undefined? && v != password ==> |errors| > 0 && errors[0] == PasswordMismatchMessage
    ensures |errors| == 2 <==> !v.Undefined? && v != password && !IsNonEmptyString(v)
    ensures |errors| <= 2
    ensures |errors| == 2 ==>
              errors[1] == if v == Str("") then EmptyStringMessage(ConfirmPasswordKey)
                           else MustBeStringMessage(ConfirmPasswordKey)
  {
    if v.Undefined? then [ConfirmPasswordRequiredMessage]
    else if v == password then []
    else
      [PasswordMismatchMessage] +
      match v
      case Str(s) => if s == "" then [EmptyStringMessage(ConfirmPasswordKey)] else []
      case _ => [MustBeStringMessage(ConfirmPasswordKey)]
  }

  /**
   * The bodies the schema admits, stated directly: non-empty username and name
   * strings, an email string the email syntax accepts, a password string of at
   * least six characters, a confirmation equal to it, and no other key.
   */
  predicate AcceptableRegistration(body: Body, isEmail: string -> bool)
  {
    var email := Get(body, EmailKey);
    var password := Get(body, PasswordKey);
    && IsNonEmptyString(Get(body, UsernameKey))
    && IsNonEmptyString(Get(body, NameKey))
    && email.Str? && isEmail(email.s) && email.s != ""
    && password.Str? && |password.s| >= MinPasswordLength
    && Get(body, ConfirmPasswordKey) == password
    && forall i :: 0 <= i < |body| ==> body[i].0 in UserKeys
  }

  /**
   * Every synchronous failure of the schema, in the order the library finds
   * them: none exactly for the bodies the schema admits.
   */
  function Violations(body: Body, isEmail: string -> bool): (violations: seq<string>)
    ensures violations == [] <==> AcceptableRegistration(body, isEmail)
  {
    StringErrors(Get(body, UsernameKey), UsernameKey, UsernameRequiredMessage, UsernameRequiredMessage)
    + StringErrors(Get(body, NameKey), NameKey, NameRequiredMessage, NameRequiredMessage)
    + EmailErrors(Get(body, EmailKey), isEmail)
    + PasswordErrors(Get(body, PasswordKey))
    + ConfirmPasswordErrors(Get(body, ConfirmPasswordKey), Get(body, PasswordKey))
    + UnknownKeyErrors(body, UserKeys)
  }

  /**
   * No synchronous message is empty or a prefix of the duplicate-username
   * message, so their join is never empty and never that message. Two
   * characters tell them apart: every synchronous message starts with a
   * character other than that message's `U`, except `Username is required`,
   * whose character at index 9 (`i`) differs from the `a` there.
   */
  predicate DistinctFromTaken(m: string)
  {
    |m| > 0 && (m[0] != UsernameTakenMessage[0] || (|m| > 9 && m[9] != UsernameTakenMessage[9]))
  }

  lemma LabelledMessagesDistinctFromTaken(key: string)
    ensures DistinctFromTaken(NotAllowedMessage(key)) && DistinctFromTaken(MustBeStringMessage(key))
    ensures DistinctFromTaken(EmptyStringMessage(key))
  {
    assert NotAllowedMessage(key)[0] == '"';
    assert MustBeStringMessage(key)[0] == '"';
    assert EmptyStringMessage(key)[0] == '"';
  }

  lemma FieldMessagesDistinctFromTaken(body: Body, isEmail: string -> bool)
    ensures var username := Get(body, UsernameKey);
            forall m :: m in StringErrors(username, UsernameKey, UsernameRequiredMessage, UsernameRequiredMessage)
                        ==> DistinctFromTaken(m)
    ensures var name := Get(body, NameKey);
            forall m :: m in StringErrors(name, NameKey, NameRequiredMessage, NameRequiredMessage)
                        ==> DistinctFromTaken(m)
    ensures forall m :: m in EmailErrors(Get(body, EmailKey), isEmail) ==> DistinctFromTaken(m)
    ensures forall m :: m in PasswordErrors(Get(body, PasswordKey)) ==> DistinctFromTaken(m)
    ensures forall m :: m in ConfirmPasswordErrors(Get(body, ConfirmPasswordKey), Get(body, PasswordKey))
                        ==> DistinctFromTaken(m)
  {
    LabelledMessagesDistinctFromTaken(UsernameKey);
    LabelledMessagesDistinctFromTaken(NameKey);
    LabelledMessagesDistinctFromTaken(EmailKey);
    LabelledMessagesDistinctFromTaken(PasswordKey);
    LabelledMessagesDistinctFromTaken(ConfirmPasswordKey);
  }

  lemma ViolationMessagesDistinctFromTaken(body: Body, isEmail: string -> bool)
    ensures forall m :: m in Violations(body, isEmail) ==> DistinctFromTaken(m)
  {
    FieldMessagesDistinctFromTaken(body, isEmail);
    forall m | m in UnknownKeyErrors(body, UserKeys)
      ensures DistinctFromTaken(m)
    {
      var i :| 0 <= i < |body| && body[i].0 !in UserKeys && m == NotAllowedMessage(body[i].0);
      LabelledMessagesDistinctFromTaken(body[i].0);
    }
  }

  lemma {:induction false} JoinDistinctFromTaken(parts: seq<string>)
    requires |parts| > 0 && DistinctFromTaken(parts[0])
    ensures Join(parts, MessageSeparator) != "" && Join(parts, MessageSeparator) != UsernameTakenMessage
  {
    var joined := Join(parts, MessageSeparator);
    assert parts[0] <= joined;
    assert joined[0] == parts[0][0];
    if parts[0][0] == UsernameTakenMessage[0] {
      assert joined[9] == parts[0][9];
    }
  }

  /** `create`: validation, then the username lookup, then the write and the reply. */
  function Register(body: Body, isEmail: string -> bool, hash: string -> string, store: UserStore)
    : (out: Registration)
    ensures var violations := Violations(body, isEmail);
            violations != [] ==> out == Registration(BadRequest(Join(violations, MessageSeparator)), None)
    ensures var username := Text(Get(body, UsernameKey));
            out.write.Some? <==> AcceptableRegistration(body, isEmail) && store.lookupFault.None?
                                 && username !in store.usernames && store.hashFault.None?
    ensures out.write.Some? ==>
              out.write.value == (Text(Get(body, UsernameKey)),
                                  UserRecord(Text(Get(body, NameKey)), Text(Get(body, EmailKey)),
                                             hash(Text(Get(body, PasswordKey)))))
    ensures out.reply.Ok? <==> out.write.Some? && store.writeFault.None?
    ensures out.reply.Ok? ==>
              out.reply == Ok(RegistrationSuccessMessage,
                              UserSummary(Text(Get(body, UsernameKey)), Text(Get(body, NameKey)), Text(Get(body, EmailKey))))
    ensures out.reply == BadRequest(UsernameTakenMessage) <==>
              AcceptableRegistration(body, isEmail) && store.lookupFault.None?
              && Text(Get(body, UsernameKey)) in store.usernames
    ensures out.reply.ServerError? <==>
              AcceptableRegistration(body, isEmail)
              && (store.lookupFault.Some?
                  || (Text(Get(body, UsernameKey)) !in store.usernames
                      && (store.hashFault.Some? || store.writeFault.Some?)))
    ensures out.reply.ServerError? ==>
              out.reply.message == if store.lookupFault.Some? then store.lookupFault.value + ExternalRuleSuffix
                                   else if store.hashFault.Some? then store.hashFault.value
                                   else store.writeFault.value
  {
    var violations := Violations(body, isEmail);
    if violations != [] then
      ViolationMessagesDistinctFromTaken(body, isEmail);
      assert violations[0] in violations;
      JoinDistinctFromTaken(violations);
      var joined := Join(violations, MessageSeparator);
      Registration(BadRequest(if joined == "" then FallbackMessage else joined), None)
    else
      var username := Text(Get(body, UsernameKey));
      var name := Text(Get(body, NameKey));
      var email := Text(Get(body, EmailKey));
      match store.lookupFault
      case Some(message) => Registration(ServerError(message + ExternalRuleSuffix), None)
      case None =>
        if username in store.usernames then
          Registration(BadRequest(Join([UsernameTakenMessage], MessageSeparator)), None)
        else if store.hashFault.Some? then
          // the hash is awaited while `set`'s argument is built, so `set` is never called
          Registration(ServerError(store.hashFault.value), None)
        else
          var write := (username, UserRecord(name, email, hash(Text(Get(body, PasswordKey)))));
          match store.writeFault
          case Some(message) => Registration(ServerError(message), Some(write))
          case None => Registration(Ok(RegistrationSuccessMessage, UserSummary(username, name, email)), Some(write))
  }

  /** All failures are reported in the one 400 reply: each message appears in it. */
  lemma EveryViolationReported(body: Body, isEmail: string -> bool, hash: string -> string, store: UserStore, k: nat)
    requires k < |Violations(body, isEmail)|
    ensures var reply := Register(body, isEmail, hash, store).reply;
            var m := Violations(body, isEmail)[k];
            reply.BadRequest? && reply.Status() == 400 && Contains(reply.message, m)
  {
    JoinContainsParts(Violations(body, isEmail), MessageSeparator, k);
  }

  /** A missing username, name, email, password or confirmation is reported with its own message. */
  lemma MissingFieldsReported(body: Body, isEmail: string -> bool)
    ensures Get(body, UsernameKey).Undefined? ==> UsernameRequiredMessage in Violations(body, isEmail)
    ensures Get(body, NameKey).Undefined? ==> NameRequiredMessage in Violations(body, isEmail)
    ensures Get(body, EmailKey).Undefined? ==> EmailRequiredMessage in Violations(body, isEmail)
    ensures Get(body, PasswordKey).Undefined? ==> PasswordRequiredMessage in Violations(body, isEmail)
    ensures Get(body, ConfirmPasswordKey).Undefined? ==> ConfirmPasswordRequiredMessage in Violations(body, isEmail)
  {
  }

  /** A non-empty password string shorter than six characters is reported as too short. */
  lemma ShortPasswordReported(body: Body, isEmail: string -> bool)
    requires Get(body, PasswordKey).Str? && 0 < |Get(body, PasswordKey).s| < MinPasswordLength
    ensures PasswordTooShortMessage in Violations(body, isEmail)
  {
  }

  /** A confirmation that is present but differs from the password is reported as a mismatch. */
  lemma MismatchReported(body: Body, isEmail: string -> bool)
    requires !Get(body, ConfirmPasswordKey).Undefined? && Get(body, ConfirmPasswordKey) != Get(body, PasswordKey)
    ensures PasswordMismatchMessage in Violations(body, isEmail)
  {
  }

  /**
   * The duplicate-username message never accompanies another: it is not among
   * the synchronous messages, and when it is the reply every synchronous check
   * passed and the username is registered already.
   */
  lemma TakenUsernameReportedAlone(body: Body, isEmail: string -> bool, hash: string -> string, store: UserStore)
    ensures UsernameTakenMessage !in Violations(body, isEmail)
    ensures Register(body, isEmail, hash, store).reply == BadRequest(UsernameTakenMessage) ==>
              Violations(body, isEmail) == [] && Text(Get(body, UsernameKey)) in store.usernames
  {
    ViolationMessagesDistinctFromTaken(body, isEmail);
  }

}
